=== FILE: README.md ===
# Login and logout handlers of the hanayo web front end

This project models the login state machine of `login.go`. It covers
`loginSubmit`, `logout` and the record that `generateToken` writes. Each
handler becomes a pure function. It takes the request and the answers of the
collaborators, and returns a `Reply`: a tagged outcome plus the side effects.

- The request (`Request`) holds the user id already in the request context
  (0 for nobody), the raw `username` and `password` form fields, and the
  `X-Real-IP` header.
- The collaborators (`Env`) are the user-table lookup, `cmd5`, the bcrypt
  comparison, `is2faEnabled`, `common.RandomString` and whether the `tokens`
  insert succeeds. All of them are opaque function values or a flag.
- The outcome (`Outcome`) is one of: a refusal shown on the page (`Refusal`),
  the "already logged out" notice, a redirect with its target, or a 500.
- The effects (`Effects`) are: the user lookup issued, if any; whether
  `setYCookie` and `logIP` ran; the session `Delta`; the token row added;
  and the cookie logout writes.

A session `Delta` says whether the request's session copy was cleared,
which keys were `Set` and whether `Save` ran. `Sessions.Commit` gives the
session the next request sees. None of the modelled keys reaches it without
`Save`. This is how the model shows that `login.go:93` sets `userid` and the
token-insert failure at `login.go:97-101` still leaves the saved session as it
was. The flash messages `addMessage` queues are not part of `Data` (see "Left
out"), so "the session" below means the keys the handlers set.

`PhaseOf` reads a saved session as anonymous (no `userid`), pending the second
factor (`2fa_must_validate` is `true`) or logged in. The middleware that turns
a saved session into the context's user id is not part of this model, so
`currentUserId` stays an input.

Files:

- `strings.dfy`: Go's `strings.Contains`, `strings.TrimSpace` and
  `unicode.IsSpace`, with a uniqueness lemma that pins down `TrimSpace`.
- `sessions.dfy`: session values, `Delta` and `Commit`.
- `login.dfy`: the data model, `Login`, `Authenticate`, `Establish`,
  `GenerateToken`, `Logout`.
- `login_properties.dfy`: the per-branch properties.
- `login_examples.dfy`: three concrete requests against a small user table.

Three behaviours of the code worth knowing:

- Only password version 1 is sent to `/pwreset` (`login.go:64-67`). Every
  other version, 0 included, goes to the bcrypt comparison.
- `setYCookie` (`login.go:90`) runs before the token insert, so a 500 from a
  failed insert comes after the y cookie was set.
  `LoginProperties.TokenInsertFailure` states this.
- `login.go:93-116` never deletes `2fa_must_validate`. If the saved session
  already holds it, a login without 2FA sets `userid` and `token` and leaves
  the key in place. `LoginProperties.TokenLogin` states the resulting phase.

## Model

| member | source | states |
|---|---|---|
| `Strings.IsSpace` | login.go:47 | Go's `unicode.IsSpace`: below 0x80 exactly tab, newline, vertical tab, form feed, carriage return and space; every space lies between U+0009 and U+3000 |
| `Strings.ContainsIffOccurs` | login.go:27 | `strings.Contains(s, sub)` holds exactly when `sub` occurs in `s` at some offset |
| `Strings.ContainsOneChar` | login.go:27 | `strings.Contains(s, "@")` holds exactly when `@` is a character of `s` |
| `Strings.LeadingSpaces` | login.go:47 | the count is the length of the all-space prefix of `s`, and the next character, if there is one, is not a space |
| `Strings.TrailingSpaces` | login.go:47 | the count is the length of the all-space suffix of `s`, and the character before it, if there is one, is not a space |
| `Strings.TrimSpace` | login.go:47 | the result is the slice of `s` that follows the leading spaces and is followed only by spaces, with no space at either end |
| `Strings.LeadingSpacesUnique` | login.go:47 | any all-space prefix followed by a non-space, or by the end, has the length `LeadingSpaces` gives |
| `Strings.TrailingSpacesUnique` | login.go:47 | any all-space suffix preceded by a non-space, or by the start, has the length `TrailingSpaces` gives |
| `Strings.TrimSpaceUnique` | login.go:47 | any split of `s` into spaces, a core without edge spaces and spaces has `TrimSpace(s)` as its core |
| `Strings.TrimSpaceKeepsNonSpace` | login.go:47 | a non-space character occurs in the trimmed username exactly when it occurs in the username |
| `Strings.TrimSpaceFixesTrimmed` | login.go:47 | a username with no space at either end is looked up unchanged |
| `Sessions.Commit` | login.go:92-116 | without `Save` the next request sees the old session; with it, the keys set win and the other keys survive unless the copy was cleared |
| `Sessions.CommitIdempotent` | login.go:126-134 | committing the same delta twice gives the session that committing it once gives |
| `LoginHandlers.GenerateToken` | login.go:138-148 | a token is issued exactly when the insert succeeds; the raw value is `RandomString(32)` and the row holds the user id, privileges 0, the X-Real-IP as description, `cmd5` of the raw value and private set |
| `LoginHandlers.PhaseOf` | login.go:93-106 | the model's own reading of a saved session, not behaviour of `login.go`: anonymous exactly when `userid` is absent, pending exactly when `userid` is present and `2fa_must_validate` is `true` |
| `LoginHandlers.LookupColumn` | login.go:26-29 | the email column is chosen exactly when the submitted username holds an `@` |
| `LoginHandlers.LookupFor` | login.go:26-47 | the column is email exactly when the username holds an `@`; the value is the piece of the username after its leading spaces that is followed only by spaces and has no space at either end (by `Strings.TrimSpaceUnique`, exactly Go's `strings.TrimSpace`), and holds an `@` exactly when the username does |
| `LoginHandlers.Authenticate` | login.go:64-90 | version 1 redirects to `/pwreset` with nothing else done; "wrong password" exactly when the version is current and bcrypt fails; "not allowed" exactly when bcrypt passes and the normal bit is clear; refusals change nothing; when all gates pass the y cookie is set and the row's id is set as `userid` in the copy, and otherwise the session is left as it was |
| `LoginHandlers.Establish` | login.go:90-116 | `userid` is always set in the copy; with 2FA `2fa_must_validate` is set to `true`, the copy saved and the user sent to the gateway; without it, a stored token puts the raw value in the saved session, adds the row with its MD5 and logs the IP, and a failed insert gives a 500 with nothing saved |
| `LoginHandlers.Login` | login.go:15-118 | a lookup happens exactly when the upfront checks pass, on the chosen column and the trimmed username; the session is saved exactly on the two success redirects; a token row and `logIP` happen exactly on the redirect home; only `userid`, `token` and `2fa_must_validate` are ever set; `userid` is set exactly when the y cookie is |
| `LoginHandlers.Logout` | login.go:120-136 | user id 0 gives the "already logged out" notice and no effect; any other id clears and saves the session, writes an empty `rt` cookie that expires in the past, and redirects home |
| `LoginProperties.RefusedBeforeLookup` | login.go:16-24 | a logged-in user, or an empty username or password field, is refused with the matching error before any lookup, with no effect on the session or the token table |
| `LoginProperties.LookupColumnIsEmailIffAt` | login.go:26-29 | the email column is chosen exactly when the raw username contains `@`, its name is what the not-found message names, and the value looked up is the trimmed username |
| `LoginProperties.ColumnSurvivesTrimming` | login.go:26-47 | choosing the column on the trimmed username would give the same column |
| `LoginProperties.BlankUsernameIsLookedUpEmpty` | login.go:21-47 | a username of spaces only passes the empty check and is looked up as the empty username |
| `LoginProperties.LookupFailures` | login.go:54-62 | no row gives "no user with such" the chosen column; any other error gives a 500; neither changes the session or stores a token |
| `LoginProperties.LegacyPasswordAlwaysResets` | login.go:64-68 | password version 1 redirects to `/pwreset`; the reply is the same for every password and every bcrypt answer, and nothing is saved or stored |
| `LoginProperties.PasswordThenPrivilege` | login.go:70-84 | with a current version, "wrong password" comes exactly when the bcrypt check of `cmd5(password)` fails, and "not allowed" exactly when it passes but the normal-user bit is clear; neither leaves a trace |
| `LoginProperties.WrongPasswordHidesPrivileges` | login.go:70-84 | a wrong password is refused as such, and `Login` gives the same reply when the user table returns the row with any other privileges |
| `LoginProperties.CountryIsIgnored` | login.go:86-88 | `Login` gives the same reply when the user table returns the row with any other country, `XX` included |
| `LoginProperties.LoginSucceedsIff` | login.go:64-116 | the login succeeds exactly when a row is found, it passes every gate, and either 2FA is on or the token insert succeeds |
| `LoginProperties.TwoFactorLogin` | login.go:92-111 | with 2FA on, the session gets `userid` and `2fa_must_validate = true` and is saved, no token is made, the phase is pending, and the redirect is to `/2fa_gateway/generate` |
| `LoginProperties.TokenLogin` | login.go:96-116 | with 2FA off and a successful insert, exactly the expected token row is stored, the raw token and user id are saved in the session, `logIP` runs, the redirect is home, and a `2fa_must_validate` key already in the session is left as it was |
| `LoginProperties.SessionTokenMatchesStoredRow` | login.go:97-103 | after a redirect home, the `cmd5` of the session's token is the stored row's token, and the row's user is the session's user id |
| `LoginProperties.TokenInsertFailure` | login.go:92-102 | a failed insert gives a 500 after `userid` was set in the copy and the y cookie was set, but the session is not saved and no token is stored |
| `LoginProperties.ErrorsLeaveNoTrace` | login.go:16-84 | every answer other than the two success redirects leaves the saved session unchanged and stores no token |
| `LoginProperties.LogoutWhenAnonymous` | login.go:121-125 | logging out nobody gives the notice and leaves the session unchanged |
| `LoginProperties.LogoutEndsSession` | login.go:126-135 | logging out a user leaves a saved session without `userid`, `token` or `2fa_must_validate`, hence anonymous, an empty `rt` cookie that expires in the past, and a redirect home |
| `LoginProperties.LogoutIdempotent` | login.go:120-136 | a second logout, for the same id or for nobody, leaves the session as the first one left it |
| `LoginExamples.AliceIsFoundByEmail` | login.go:26-47 | alice's email address is looked up verbatim in the email column |
| `LoginExamples.AliceIsAdmitted` | login.go:16-84 | alice's request passes the upfront checks, finds her row, and clears the version, password and privilege gates |
| `LoginExamples.AliceLogsIn` | login.go:26-116 | an email login with the right password redirects home and stores one token row for alice's id and address |
| `LoginExamples.BobIsUnknown` | login.go:54-57 | an unknown username gives "no user with such username" |
| `LoginExamples.CarolMustResetPassword` | login.go:64-68 | a legacy-password account is sent to `/pwreset`, whatever password is typed |

## Left out

- The gin context, HTTP response writing and page rendering (`simpleReply`, `respEmpty`, `resp500`, `c.Error`) are left out. Only the outcome tags are kept, and message texts are not modelled beyond the column name.
- SQL text and database access are left out. The user lookup is the `Env.findUser` function of a `Query`. Any `Scan` failure counts as `StoreError`, for example a NULL country from the `LEFT JOIN` when a user has no `users_stats` row.
- bcrypt, `cmd5` and `common.RandomString` are opaque `Env` functions, because they are library code.
- `setYCookie` and `logIP` are external calls. Only whether they run is recorded. `is2faEnabled` is an `Env` function of the user id.
- `time.Now()` is left out. The expiry of the `rt` cookie is recorded as the flag `expiresInPast`.
- The request middleware that sets the context's user id from the session is not part of this model, so `currentUserId` is an input.
- The hash-cost upgrade TODO (`login.go:78-79`) and the body of the `XX` country branch (`login.go:86-88`) have no behaviour and are not modelled.
- The value 2 of `UserPrivilegeNormal` (bit 1) comes from rippleapi's `common` package, which is not part of this model. The privilege mask is modelled as `bv64`, matching that package's 64-bit unsigned type.
- Go strings are UTF-8 bytes, but here they are sequences of Unicode scalar values. For `Contains` with `"@"` and for `TrimSpace`, both give the same answers on well-formed input. Malformed UTF-8 is not modelled.
- The flash messages `addMessage` queues at `login.go:65`, `login.go:113` and `login.go:133` are carried to the next request by a mechanism that is not part of this model. So `LeavesNoTrace` and `LogoutWhenAnonymous` speak only of the keys the handlers set.
- LogoutEndsSession: states only that `userid`, `token` and `2fa_must_validate` are gone, not that the saved session is empty, because `addMessage` at `login.go:133` runs between `Clear` and `Save` and may store a message.
- Concurrency is left out. Each request is one independent call.
- GenerateToken: does not state that the raw token is 32 characters long, because `common.RandomString` is not part of this model; the model only records that it is called with length 32.

=== FILE: login.dfy ===
/**
 The login and logout handlers of the web front end: `loginSubmit`, `logout`
 and `generateToken`. Each handler is a pure function from the request and
 the answers of its collaborators (the user table, the token table, the MD5
 and bcrypt primitives, the 2FA lookup, the random generator) to a `Reply`:
 a tagged outcome plus the handler's side effects.
 */
module LoginHandlers {
  import opened Strings
  import opened Sessions

  datatype Option<T> = None | Some(value: T)

  // ---------------------------------------------------------------------
  // Constants of the handlers
  // ---------------------------------------------------------------------

  /** Session keys. */
  const UserIdKey := "userid"
  const TokenKey := "token"
  const TwoFactorKey := "2fa_must_validate"

  /** Redirect targets. */
  const HomePath := "/"
  const PasswordResetPath := "/pwreset"
  const TwoFactorGatewayPath := "/2fa_gateway/generate"

  /** The "remember token" cookie that logout expires. */
  const RememberCookie := "rt"

  /** The password version the handler refuses to compare against. */
  const LegacyPasswordVersion := 1

  /** The country sentinel the handler compares with, to no effect. */
  const UnknownCountry := "XX"

  /** Length of the random token string. */
  const TokenLength := 32

  /** `common.UserPrivilegeNormal`, bit 1 of the privilege mask. */
  const UserPrivilegeNormal: bv64 := 2

  // ---------------------------------------------------------------------
  // Data model
  // ---------------------------------------------------------------------

  /** The column of `users` the submitted identifier is matched against. */
  datatype Column = Username | Email

  /** The column's name, as it appears both in the query and in the
      "No user with such ...!" message. */
  function ColumnName(c: Column): string {
    match c
    case Username => "username"
    case Email => "email"
  }

  /** One lookup in the user table: `WHERE u.<column> = <value> LIMIT 1`. */
  datatype Query = Query(column: Column, value: string)

  /** The row the lookup scans: user id, bcrypt hash, username, password
      version, country (from `users_stats`) and the privilege mask. */
  datatype Identity = Identity(
    id: int,
    username: string,
    passwordHash: string,
    passwordVersion: int,
    country: string,
    privileges: bv64)

  /** What the lookup and `Scan` give back: a row, `sql.ErrNoRows`, or any
      other error. */
  datatype Lookup = Found(record: Identity) | NoRows | StoreError

  /** The collaborators the handlers call and this model does not look into. */
  datatype Env = Env(
    findUser: Query -> Lookup,                // the `users` lookup
    cmd5: string -> string,                   // hex MD5 of a string
    bcryptMatches: (string, string) -> bool,  // CompareHashAndPassword(hash, pw) == nil
    twoFactorEnabled: int -> bool,            // is2faEnabled
    randomString: int -> string,              // common.RandomString, for this request
    tokenInsertSucceeds: bool)                // the tokens INSERT returns no error

  /** What a request brings: the user id the context already carries (0 for
      nobody), the two form fields as submitted (absent reads as ""), and
      the X-Real-IP header. */
  datatype Request = Request(
    currentUserId: int,
    username: string,
    password: string,
    realIp: string)

  /** A row of the `tokens` table. */
  datatype TokenRow = TokenRow(
    user: int,
    privileges: int,
    description: string,
    token: string,
    private: bool)

  datatype Cookie = Cookie(name: string, value: string, expiresInPast: bool)

  /** The errors shown to the user on the login page. */
  datatype Refusal =
    | AlreadyLoggedIn
    | CredentialsNotSet
    | NoSuchUser(column: Column)
    | WrongPassword
    | AccountNotAllowed

  /** How a handler answers. */
  datatype Outcome =
    | Refused(reason: Refusal)     // the page again, with an error message
    | AlreadyLoggedOut             // the logout page, with a warning
    | Redirect(location: string)   // a 302
    | InternalError                // a 500

  /** Everything a handler does besides answering. */
  datatype Effects = Effects(
    query: Option<Query>,         // the user lookup, if one was issued
    yCookieSet: bool,             // setYCookie was called
    session: Delta,               // what happened to the session copy
    tokenRow: Option<TokenRow>,   // the row added to `tokens`
    ipLogged: bool,               // logIP was called
    cookie: Option<Cookie>)       // a cookie the handler wrote itself

  const NoEffects := Effects(None, false, Untouched, None, false, None)

  datatype Reply = Reply(outcome: Outcome, effects: Effects)

  /** The two answers that mean the password login went through. */
  predicate Succeeded(o: Outcome) {
    o == Redirect(HomePath) || o == Redirect(TwoFactorGatewayPath)
  }

  /** How the session lets a later request in: nobody, a user still owing the
      second factor, or a logged-in user. */
  datatype Phase = Anonymous | PendingSecondFactor | LoggedIn

  /** This reading of a saved session is the model's own: the middleware
      that acts on these keys is not part of this model. */
  function PhaseOf(s: Data): (p: Phase)
    ensures p == Anonymous <==> UserIdKey !in s
    ensures p == PendingSecondFactor <==>
      UserIdKey in s && TwoFactorKey in s && s[TwoFactorKey] == BoolValue(true)
  {
    if UserIdKey !in s then Anonymous
    else if TwoFactorKey in s && s[TwoFactorKey] == BoolValue(true) then PendingSecondFactor
    else LoggedIn
  }

  // ---------------------------------------------------------------------
  // Helpers of loginSubmit
  // ---------------------------------------------------------------------

  /** The checks made before the user table is consulted. */
  predicate RefusedUpfront(req: Request) {
    req.currentUserId != 0 || req.username == "" || req.password == ""
  }

  /** The column is chosen on the username as submitted: the email column
      exactly when it holds an `@`. */
  function LookupColumn(username: string): (c: Column)
    ensures c == Email <==> '@' in username
  {
    assert "@" == ['@'];
    ContainsOneChar(username, '@');
    if Contains(username, "@") then Email else Username
  }

  /** The lookup matches the chosen column against the trimmed username: a
      piece of the username, after its leading spaces, with no space at
      either end, which holds an `@` exactly when the username does. */
  function LookupFor(username: string): (q: Query)
    ensures q.column == Email <==> '@' in username
    ensures LeadingSpaces(username) + |q.value| <= |username|
    ensures q.value == username[LeadingSpaces(username)..LeadingSpaces(username) + |q.value|]
    ensures AllSpace(username[LeadingSpaces(username) + |q.value|..])
    ensures NoEdgeSpace(q.value)
    ensures '@' in q.value <==> '@' in username
  {
    assert !IsSpace('@');
    TrimSpaceKeepsNonSpace(username, '@');
    Query(LookupColumn(username), TrimSpace(username))
  }

  /** bcrypt compares the stored hash with the MD5 of the submitted password. */
  predicate PasswordMatches(env: Env, rec: Identity, password: string) {
    env.bcryptMatches(rec.passwordHash, env.cmd5(password))
  }

  predicate HasPrivilege(privileges: bv64, bit: bv64) {
    privileges & bit != 0
  }

  // ---------------------------------------------------------------------
  // generateToken
  // ---------------------------------------------------------------------

  /** A fresh token: the raw string for the client, the row that stores it. */
  datatype TokenIssue = Issued(raw: string, row: TokenRow) | InsertFailed

  /** Draws a random token and stores its MD5 in a private row of `tokens`
      that has no privileges and the client address as description; the raw
      string goes back to the caller, and nothing does when the insert fails. */
  function GenerateToken(env: Env, id: int, realIp: string): (r: TokenIssue)
    ensures r.Issued? <==> env.tokenInsertSucceeds
    ensures r.Issued? ==> r.raw == env.randomString(TokenLength)
    ensures r.Issued? ==> r.row == TokenRow(id, 0, realIp, env.cmd5(r.raw), true)
  {
    var tok := env.randomString(TokenLength);
    if env.tokenInsertSucceeds then Issued(tok, TokenRow(id, 0, realIp, env.cmd5(tok), true))
    else InsertFailed
  }

  // ---------------------------------------------------------------------
  // loginSubmit
  // ---------------------------------------------------------------------

  /** The login form handler. */
  function Login(req: Request, env: Env): (r: Reply)
    // the lookup happens exactly when the upfront checks pass, and it is the
    // one `LookupFor` describes
    ensures r.effects.query.None? <==> RefusedUpfront(req)
    ensures r.effects.query.Some? ==> r.effects.query.value == LookupFor(req.username)
    // no error leaves a saved session or a token behind
    ensures r.effects.session.saved <==> Succeeded(r.outcome)
    ensures r.effects.tokenRow.Some? <==> r.outcome == Redirect(HomePath)
    ensures r.effects.ipLogged <==> r.outcome == Redirect(HomePath)
    // login never clears the session and writes no cookie of its own
    ensures !r.effects.session.cleared && r.effects.cookie.None?
    // only the three login keys are ever set, and the user id is set exactly
    // when every gate passed, which is also when the y cookie is set
    ensures r.effects.session.sets.Keys <= {UserIdKey, TokenKey, TwoFactorKey}
    ensures UserIdKey in r.effects.session.sets <==> r.effects.yCookieSet
    ensures !r.effects.yCookieSet ==> r.effects.session == Untouched
  {
    if req.currentUserId != 0 then Reply(Refused(AlreadyLoggedIn), NoEffects)
    else if req.username == "" || req.password == "" then Reply(Refused(CredentialsNotSet), NoEffects)
    else
      var q := LookupFor(req.username);
      var looked := NoEffects.(query := Some(q));
      match env.findUser(q)
      case NoRows => Reply(Refused(NoSuchUser(q.column)), looked)
      case StoreError => Reply(InternalError, looked)
      case Found(rec) => Authenticate(req, env, rec, looked)
  }

  /** The gates after a row was found: password version, password, privilege.
      A legacy version is sent to the reset page before any comparison; a
      refusal changes nothing; once every gate passes, the y cookie is set and
      the session is bound. */
  function Authenticate(req: Request, env: Env, rec: Identity, looked: Effects): (r: Reply)
    ensures rec.passwordVersion == LegacyPasswordVersion ==> r == Reply(Redirect(PasswordResetPath), looked)
    ensures r.outcome == Refused(WrongPassword) <==>
      rec.passwordVersion != LegacyPasswordVersion && !PasswordMatches(env, rec, req.password)
    ensures r.outcome == Refused(AccountNotAllowed) <==>
      && rec.passwordVersion != LegacyPasswordVersion
      && PasswordMatches(env, rec, req.password)
      && !HasPrivilege(rec.privileges, UserPrivilegeNormal)
    ensures r.outcome.Refused? ==> r.effects == looked
    ensures (Succeeded(r.outcome) || r.outcome == InternalError) <==>
      && rec.passwordVersion != LegacyPasswordVersion
      && PasswordMatches(env, rec, req.password)
      && HasPrivilege(rec.privileges, UserPrivilegeNormal)
    ensures r.effects.yCookieSet <==> looked.yCookieSet || Succeeded(r.outcome) || r.outcome == InternalError
    ensures (Succeeded(r.outcome) || r.outcome == InternalError) ==>
      UserIdKey in r.effects.session.sets && r.effects.session.sets[UserIdKey] == IntValue(rec.id)
    ensures !(Succeeded(r.outcome) || r.outcome == InternalError) ==> r.effects.session == looked.session
    ensures r.effects.query == looked.query && r.effects.cookie == looked.cookie
  {
    if rec.passwordVersion == LegacyPasswordVersion then Reply(Redirect(PasswordResetPath), looked)
    else if !PasswordMatches(env, rec, req.password) then Reply(Refused(WrongPassword), looked)
    else if !HasPrivilege(rec.privileges, UserPrivilegeNormal) then Reply(Refused(AccountNotAllowed), looked)
    // the comparison of the country with UnknownCountry has an empty branch
    else Establish(req, env, rec.id, looked.(yCookieSet := true))
  }

  /** Binding the session: the user id always goes into the copy; then either
      the 2FA flag, or a new token, which when it cannot be stored ends the
      request before `Save`. */
  function Establish(req: Request, env: Env, id: int, before: Effects): (r: Reply)
    // with 2FA the user is sent to the gateway; without it, to the home page
    // when the token is stored and to a 500 when it is not
    ensures r.outcome == Redirect(TwoFactorGatewayPath) <==> env.twoFactorEnabled(id)
    ensures r.outcome == InternalError <==> !env.twoFactorEnabled(id) && !env.tokenInsertSucceeds
    ensures Succeeded(r.outcome) || r.outcome == InternalError
    // the user id is always in the copy, which is saved exactly on success
    ensures !r.effects.session.cleared
    ensures r.effects.session.saved <==> Succeeded(r.outcome)
    ensures r.effects.session.sets.Keys <= {UserIdKey, TokenKey, TwoFactorKey}
    ensures UserIdKey in r.effects.session.sets && r.effects.session.sets[UserIdKey] == IntValue(id)
    ensures TwoFactorKey in r.effects.session.sets <==> env.twoFactorEnabled(id)
    ensures env.twoFactorEnabled(id) ==> r.effects.session.sets[TwoFactorKey] == BoolValue(true)
    // the raw token in the session is the one whose MD5 the new row holds
    ensures TokenKey in r.effects.session.sets <==> r.outcome == Redirect(HomePath)
    ensures r.outcome == Redirect(HomePath) ==>
      && r.effects.tokenRow.Some? && r.effects.ipLogged
      && r.effects.session.sets[TokenKey] == StringValue(env.randomString(TokenLength))
      && r.effects.tokenRow.value == TokenRow(id, 0, req.realIp, env.cmd5(env.randomString(TokenLength)), true)
    ensures r.outcome != Redirect(HomePath) ==>
      r.effects.tokenRow == before.tokenRow && r.effects.ipLogged == before.ipLogged
    ensures r.effects.query == before.query && r.effects.yCookieSet == before.yCookieSet
    ensures r.effects.cookie == before.cookie
  {
    var withUser := map[UserIdKey := IntValue(id)];
    if env.twoFactorEnabled(id) then
      Reply(Redirect(TwoFactorGatewayPath),
            before.(session := Delta(false, withUser[TwoFactorKey := BoolValue(true)], true)))
    else
      match GenerateToken(env, id, req.realIp)
      case InsertFailed =>
        Reply(InternalError, before.(session := Delta(false, withUser, false)))
      case Issued(raw, row) =>
        Reply(Redirect(HomePath),
              before.(session := Delta(false, withUser[TokenKey := StringValue(raw)], true),
                      tokenRow := Some(row),
                      ipLogged := true))
  }

  // ---------------------------------------------------------------------
  // logout
  // ---------------------------------------------------------------------

  /** The logout handler: nothing to do for nobody; otherwise the session is
      cleared and saved, and the remember cookie is overwritten empty with an
      expiry in the past. */
  function Logout(currentUserId: int): (r: Reply)
    ensures currentUserId == 0 <==> r.outcome == AlreadyLoggedOut
    ensures currentUserId == 0 ==> r.effects == NoEffects
    ensures currentUserId != 0 ==> r.outcome == Redirect(HomePath)
    ensures currentUserId != 0 ==>
      r.effects.session.cleared && r.effects.session.saved && r.effects.session.sets == map[]
    ensures currentUserId != 0 ==> r.effects.cookie == Some(Cookie(RememberCookie, "", true))
    ensures r.effects.query.None? && r.effects.tokenRow.None? && !r.effects.yCookieSet
  {
    if currentUserId == 0 then Reply(AlreadyLoggedOut, NoEffects)
    else
      Reply(Redirect(HomePath),
            NoEffects.(session := Delta(true, map[], true),
                       cookie := Some(Cookie(RememberCookie, "", true))))
  }
}

=== FILE: login_examples.dfy ===
/**
 Three worked requests against a small user table: an email login that goes
 through, an unknown username, and an account with a legacy password.
 */
module LoginExamples {
  import opened Strings
  import opened Sessions
  import opened LoginHandlers
  import opened LoginProperties

  const Alice := Identity(7, "alice", "alice-hash", 2, "JP", 3)
  const Carol := Identity(9, "carol", "carol-hash", 1, "XX", 3)

  /** A user table holding alice (by email) and carol (by username); MD5 is
      the identity, and bcrypt accepts a password equal to the stored hash. */
  const Table := Env(
    q => if q == Query(Email, "alice@example.com") then Found(Alice)
         else if q == Query(Username, "carol") then Found(Carol)
         else NoRows,
    pw => pw,
    (hash, pw) => hash == pw,
    id => false,
    n => "raw-token",
    true)

  const AliceRequest := Request(0, "alice@example.com", "alice-hash", "10.0.0.1")

  /** Alice signs in with her email address, which is looked up as it is. */
  lemma AliceIsFoundByEmail()
    ensures LookupFor(AliceRequest.username) == Query(Email, "alice@example.com")
  {
    var u := AliceRequest.username;
    assert !IsSpace(u[0]) && !IsSpace(u[|u| - 1]);
    TrimSpaceFixesTrimmed(u);
    assert u[5] == '@';
  }

  /** The table answers her email address with her row, and her password
      matches it. */
  lemma TableHoldsAlice()
    ensures Table.findUser(Query(Email, "alice@example.com")) == Found(Alice)
    ensures PasswordMatches(Table, Alice, AliceRequest.password)
  {
  }

  /** Her row clears every gate: version 2, the right password, bit 1 set. */
  lemma AliceIsAdmitted()
    ensures Admits(AliceRequest, Table, Alice)
  {
    AliceIsFoundByEmail();
    TableHoldsAlice();
    assert HasPrivilege(Alice.privileges, UserPrivilegeNormal);
  }

  lemma AliceLogsIn(s: Data)
    ensures var r := Login(AliceRequest, Table);
      && r.outcome == Redirect(HomePath)
      && r.effects.tokenRow == Some(TokenRow(7, 0, "10.0.0.1", "raw-token", true))
      && Commit(s, r.effects.session)[UserIdKey] == IntValue(7)
  {
    AliceIsAdmitted();
    TokenLogin(AliceRequest, Table, Alice, s);
  }

  lemma BobIsUnknown()
    ensures Login(Request(0, "bob", "anything", ""), Table).outcome
            == Refused(NoSuchUser(Username))
  {
    var u := "bob";
    assert !IsSpace(u[0]) && !IsSpace(u[|u| - 1]);
    TrimSpaceFixesTrimmed(u);
    assert '@' !in u;
  }

  lemma CarolMustResetPassword(password: string)
    requires password != ""
    ensures Login(Request(0, "carol", password, ""), Table).outcome == Redirect(PasswordResetPath)
  {
    var u := "carol";
    assert !IsSpace(u[0]) && !IsSpace(u[|u| - 1]);
    TrimSpaceFixesTrimmed(u);
    assert '@' !in u;
  }
}

=== FILE: login_properties.dfy ===
/**
 What the login and logout handlers guarantee, branch by branch, and how their
 session deltas move a session between the phases of `PhaseOf`.
 */
module LoginProperties {
  import opened Strings
  import opened Sessions
  import opened LoginHandlers

  /** A row was found for the request and it clears every gate of
      `Authenticate`: a current password version, a matching password and the
      normal-user privilege. */
  predicate Admits(req: Request, env: Env, rec: Identity) {
    && !RefusedUpfront(req)
    && env.findUser(LookupFor(req.username)) == Found(rec)
    && rec.passwordVersion != LegacyPasswordVersion
    && PasswordMatches(env, rec, req.password)
    && HasPrivilege(rec.privileges, UserPrivilegeNormal)
  }

  /** `env` with the user table answering `q` by `l` instead. */
  function Answering(env: Env, q: Query, l: Lookup): Env {
    env.(findUser := x => if x == q then l else env.findUser(x))
  }

  /** Nothing the next request sees has changed, and no token was stored. */
  predicate LeavesNoTrace(s: Data, r: Reply) {
    Commit(s, r.effects.session) == s && r.effects.tokenRow.None?
  }

  // ---------------------------------------------------------------------
  // Upfront checks
  // ---------------------------------------------------------------------

  /** A logged-in user, or a form with an empty field, is answered before the
      user table is consulted, and nothing at all happens. */
  lemma RefusedBeforeLookup(req: Request, env: Env, s: Data)
    requires RefusedUpfront(req)
    ensures req.currentUserId != 0 ==> Login(req, env).outcome == Refused(AlreadyLoggedIn)
    ensures req.currentUserId == 0 ==> Login(req, env).outcome == Refused(CredentialsNotSet)
    ensures Login(req, env).effects == NoEffects
    ensures LeavesNoTrace(s, Login(req, env))
  {
  }

  // ---------------------------------------------------------------------
  // Identifier resolution
  // ---------------------------------------------------------------------

  /** The email column is used exactly when the submitted username contains
      an `@`; the value looked up is the trimmed username. */
  lemma LookupColumnIsEmailIffAt(username: string)
    ensures LookupColumn(username) == Email <==> '@' in username
    ensures ColumnName(LookupColumn(username)) == (if '@' in username then "email" else "username")
    ensures LookupFor(username).value == TrimSpace(username)
  {
  }

  /** Choosing the column on the trimmed username would give the same column:
      trimming cannot add or remove an `@`. */
  lemma ColumnSurvivesTrimming(username: string)
    ensures LookupColumn(TrimSpace(username)) == LookupColumn(username)
  {
    LookupColumnIsEmailIffAt(username);
    LookupColumnIsEmailIffAt(TrimSpace(username));
    TrimSpaceKeepsNonSpace(username, '@');
  }

  /** The empty check sees the untrimmed field: a username made only of
      spaces passes it, and the user table is asked for an empty username. */
  lemma BlankUsernameIsLookedUpEmpty(req: Request, env: Env)
    requires req.currentUserId == 0 && req.password != ""
    requires req.username != "" && AllSpace(req.username)
    ensures Login(req, env).effects.query == Some(Query(Username, ""))
  {
    assert req.username == req.username + "" + "";
    TrimSpaceUnique(req.username, req.username, "", "");
    LookupColumnIsEmailIffAt(req.username);
    assert !IsSpace('@');
  }

  // ---------------------------------------------------------------------
  // Lookup results
  // ---------------------------------------------------------------------

  /** No row is a user-facing error naming the column; any other lookup error
      is a 500; neither leaves anything behind. */
  lemma LookupFailures(req: Request, env: Env, s: Data)
    requires !RefusedUpfront(req)
    ensures env.findUser(LookupFor(req.username)) == NoRows ==>
      Login(req, env).outcome == Refused(NoSuchUser(LookupColumn(req.username)))
    ensures env.findUser(LookupFor(req.username)) == StoreError ==>
      Login(req, env).outcome == InternalError
    ensures !env.findUser(LookupFor(req.username)).Found? ==>
      LeavesNoTrace(s, Login(req, env)) && !Login(req, env).effects.yCookieSet
  {
  }

  // ---------------------------------------------------------------------
  // Password version, password, privilege
  // ---------------------------------------------------------------------

  /** A legacy password always sends the user to the reset page: whatever
      password was typed, and whatever bcrypt would have said, the reply is
      the same, so no comparison takes part. */
  lemma LegacyPasswordAlwaysResets(
    req: Request, env: Env, rec: Identity, s: Data,
    otherPassword: string, otherBcrypt: (string, string) -> bool)
    requires !RefusedUpfront(req)
    requires env.findUser(LookupFor(req.username)) == Found(rec)
    requires rec.passwordVersion == LegacyPasswordVersion
    requires otherPassword != ""
    ensures Login(req, env).outcome == Redirect(PasswordResetPath)
    ensures Login(req.(password := otherPassword), env) == Login(req, env)
    ensures Login(req, env.(bcryptMatches := otherBcrypt)) == Login(req, env)
    ensures LeavesNoTrace(s, Login(req, env))
  {
  }

  /** With a current password version the password is checked first and the
      privilege second; both refusals leave nothing behind. */
  lemma PasswordThenPrivilege(req: Request, env: Env, rec: Identity, s: Data)
    requires !RefusedUpfront(req)
    requires env.findUser(LookupFor(req.username)) == Found(rec)
    requires rec.passwordVersion != LegacyPasswordVersion
    ensures Login(req, env).outcome == Refused(WrongPassword)
            <==> !PasswordMatches(env, rec, req.password)
    ensures Login(req, env).outcome == Refused(AccountNotAllowed)
            <==> PasswordMatches(env, rec, req.password)
                 && !HasPrivilege(rec.privileges, UserPrivilegeNormal)
    ensures Login(req, env).outcome.Refused? ==> LeavesNoTrace(s, Login(req, env))
  {
  }

  /** A wrong password is answered the same whatever privileges the account
      has, so the privilege state is not shown to someone without the
      password. */
  lemma WrongPasswordHidesPrivileges(req: Request, env: Env, rec: Identity, p: bv64)
    requires !RefusedUpfront(req)
    requires env.findUser(LookupFor(req.username)) == Found(rec)
    requires rec.passwordVersion != LegacyPasswordVersion
    requires !PasswordMatches(env, rec, req.password)
    ensures Login(req, env).outcome == Refused(WrongPassword)
    ensures Login(req, Answering(env, LookupFor(req.username), Found(rec.(privileges := p))))
            == Login(req, env)
  {
  }

  /** The country of the row found, the unknown-country sentinel included,
      plays no part in the reply. */
  lemma CountryIsIgnored(req: Request, env: Env, rec: Identity, country: string)
    requires !RefusedUpfront(req)
    requires env.findUser(LookupFor(req.username)) == Found(rec)
    ensures Login(req, Answering(env, LookupFor(req.username), Found(rec.(country := country))))
            == Login(req, env)
    ensures Login(req, Answering(env, LookupFor(req.username), Found(rec.(country := UnknownCountry))))
            == Login(req, env)
  {
  }

  // ---------------------------------------------------------------------
  // Session establishment
  // ---------------------------------------------------------------------

  /** The password login goes through exactly when every gate passes and,
      without 2FA, the token can be stored. */
  lemma LoginSucceedsIff(req: Request, env: Env)
    ensures Succeeded(Login(req, env).outcome) <==>
      && !RefusedUpfront(req)
      && env.findUser(LookupFor(req.username)).Found?
      && Admits(req, env, env.findUser(LookupFor(req.username)).record)
      && (env.twoFactorEnabled(env.findUser(LookupFor(req.username)).record.id)
          || env.tokenInsertSucceeds)
  {
  }

  /** With 2FA the session gets the user id and the pending flag, is saved,
      and the user is sent to the 2FA gateway; no token is made, and the
      session's token key is as it was. */
  lemma TwoFactorLogin(req: Request, env: Env, rec: Identity, s: Data)
    requires Admits(req, env, rec)
    requires env.twoFactorEnabled(rec.id)
    ensures Login(req, env).outcome == Redirect(TwoFactorGatewayPath)
    ensures Login(req, env).effects.tokenRow.None? && !Login(req, env).effects.ipLogged
    ensures Login(req, env).effects.session
            == Delta(false, map[UserIdKey := IntValue(rec.id), TwoFactorKey := BoolValue(true)], true)
    ensures Commit(s, Login(req, env).effects.session)[UserIdKey] == IntValue(rec.id)
    ensures PhaseOf(Commit(s, Login(req, env).effects.session)) == PendingSecondFactor
    ensures (TokenKey in Commit(s, Login(req, env).effects.session)) == (TokenKey in s)
  {
  }

  /** Without 2FA, one token row is stored for the user, the client address
      and the MD5 of the raw token, which goes into the saved session with
      the user id; the user lands on the home page. A `2fa_must_validate` key
      the saved session already holds is not removed. */
  lemma TokenLogin(req: Request, env: Env, rec: Identity, s: Data)
    requires Admits(req, env, rec)
    requires !env.twoFactorEnabled(rec.id) && env.tokenInsertSucceeds
    ensures Login(req, env).outcome == Redirect(HomePath)
    ensures Login(req, env).effects.tokenRow
            == Some(TokenRow(rec.id, 0, req.realIp, env.cmd5(env.randomString(TokenLength)), true))
    ensures Login(req, env).effects.ipLogged
    ensures var after := Commit(s, Login(req, env).effects.session);
      && after[UserIdKey] == IntValue(rec.id)
      && after[TokenKey] == StringValue(env.randomString(TokenLength))
      && (TwoFactorKey in after <==> TwoFactorKey in s)
      && (TwoFactorKey in s ==> after[TwoFactorKey] == s[TwoFactorKey])
      && PhaseOf(after)
         == (if TwoFactorKey in s && s[TwoFactorKey] == BoolValue(true) then PendingSecondFactor else LoggedIn)
  {
  }

  /** The token in the saved session is the one whose MD5 the stored row
      holds. */
  lemma SessionTokenMatchesStoredRow(req: Request, env: Env, s: Data)
    requires Login(req, env).outcome == Redirect(HomePath)
    ensures Login(req, env).effects.tokenRow.Some?
    ensures var after := Commit(s, Login(req, env).effects.session);
      && TokenKey in after && after[TokenKey].StringValue?
      && Login(req, env).effects.tokenRow.value.token == env.cmd5(after[TokenKey].s)
      && UserIdKey in after && after[UserIdKey] == IntValue(Login(req, env).effects.tokenRow.value.user)
  {
  }

  /** When the token cannot be stored the user id has already been set in
      the session copy, but the copy is never saved: the next request sees
      the session as it was, and the answer is a 500. */
  lemma TokenInsertFailure(req: Request, env: Env, rec: Identity, s: Data)
    requires Admits(req, env, rec)
    requires !env.twoFactorEnabled(rec.id) && !env.tokenInsertSucceeds
    ensures Login(req, env).outcome == InternalError
    ensures Login(req, env).effects.session.sets == map[UserIdKey := IntValue(rec.id)]
    ensures !Login(req, env).effects.session.saved
    ensures Login(req, env).effects.yCookieSet
    ensures LeavesNoTrace(s, Login(req, env))
  {
  }

  /** No answer other than a successful login changes the session or stores
      a token. */
  lemma ErrorsLeaveNoTrace(req: Request, env: Env, s: Data)
    requires !Succeeded(Login(req, env).outcome)
    ensures LeavesNoTrace(s, Login(req, env))
  {
  }

  // ---------------------------------------------------------------------
  // logout
  // ---------------------------------------------------------------------

  /** Logging out nobody changes nothing, however often it is repeated. */
  lemma LogoutWhenAnonymous(s: Data)
    ensures Logout(0).outcome == AlreadyLoggedOut
    ensures Commit(s, Logout(0).effects.session) == s
    ensures Logout(0).effects.cookie.None?
  {
  }

  /** Logging out a user removes the login keys from the saved session,
      expires the remember cookie, and sends the browser home. */
  lemma LogoutEndsSession(id: int, s: Data)
    requires id != 0
    ensures var after := Commit(s, Logout(id).effects.session);
      UserIdKey !in after && TokenKey !in after && TwoFactorKey !in after
    ensures PhaseOf(Commit(s, Logout(id).effects.session)) == Anonymous
    ensures Logout(id).effects.cookie == Some(Cookie(RememberCookie, "", true))
    ensures Logout(id).outcome == Redirect(HomePath)
  {
  }

  /** Whoever the context names, a second logout leaves the session as the
      first did. */
  lemma LogoutIdempotent(id: int, s: Data)
    ensures var once := Commit(s, Logout(id).effects.session);
      Commit(once, Logout(id).effects.session) == once
    ensures var once := Commit(s, Logout(id).effects.session);
      Commit(once, Logout(0).effects.session) == once
  {
    CommitIdempotent(s, Logout(id).effects.session);
  }
}

=== FILE: sessions.dfy ===
/**
 The server-side session as the login handlers use it. A handler works on a
 copy of the session loaded for the request: `Set` and `Clear` change only that
 copy, and only `Save` makes the copy the session later requests see. A
 handler's effect on the session is therefore summarised by a `Delta` (was the
 copy cleared, which keys were set, was it saved), and `Commit` is what the
 next request sees.
 */
module Sessions {

  /** The values the login handlers store: a user id, a token, a flag. */
  datatype Value = IntValue(i: int) | StringValue(s: string) | BoolValue(b: bool)

  /** The saved contents of one session, by key. */
  type Data = map<string, Value>

  /** One request's changes to its session copy: an optional `Clear` first,
      then the keys `Set`, then whether `Save` was called. */
  datatype Delta = Delta(cleared: bool, sets: map<string, Value>, saved: bool)

  /** A request that neither changes nor saves its session copy. */
  const Untouched := Delta(false, map[], false)

  /** The session the next request sees after a request made `d` to a copy of
      `s`. Without `Save` nothing reaches it; with `Save` the keys set win,
      and the other keys survive unless the copy was cleared. */
  function Commit(s: Data, d: Delta): (r: Data)
    ensures !d.saved ==> r == s
    ensures d.saved ==> forall k :: k in r <==> k in d.sets || (!d.cleared && k in s)
    ensures d.saved ==> forall k :: k in d.sets ==> r[k] == d.sets[k]
    ensures d.saved && !d.cleared ==> forall k :: k in s && k !in d.sets ==> r[k] == s[k]
  {
    if !d.saved then s
    else (if d.cleared then map[] else s) + d.sets
  }

  /** Re-running a request whose effect on its session copy is the same
      leaves the session as the first run left it. */
  lemma CommitIdempotent(s: Data, d: Delta)
    ensures Commit(Commit(s, d), d) == Commit(s, d)
  {
  }
}

=== FILE: strings.dfy ===
/**
 The two Go `strings` functions the login handler applies to the submitted
 username: `strings.Contains` (to choose the lookup column) and
 `strings.TrimSpace` (to build the lookup value). Strings are sequences of
 Unicode scalar values; Go works on UTF-8 bytes, which gives the same answers
 for these two functions on well-formed input.
 */
module Strings {

  /** Go's `unicode.IsSpace`: the Latin-1 spaces plus the other characters
      with the Unicode White_Space property. Below 0x80 it agrees with the
      six-entry ASCII table `strings.TrimSpace` consults first, and no space
      lies above U+3000. */
  predicate IsSpace(c: char)
    ensures (c as int) < 0x80 ==> (IsSpace(c) <==> (c as int) in {0x09, 0x0A, 0x0B, 0x0C, 0x0D, 0x20})
    ensures IsSpace(c) ==> 0x09 <= c as int <= 0x3000
  {
    var n := c as int;
    || 0x09 <= n <= 0x0D   // \t \n \v \f \r
    || n == 0x20
    || n == 0x85
    || n == 0xA0
    || n == 0x1680
    || 0x2000 <= n <= 0x200A
    || n == 0x2028
    || n == 0x2029
    || n == 0x202F
    || n == 0x205F
    || n == 0x3000
  }

  predicate AllSpace(s: string) {
    forall i :: 0 <= i < |s| ==> IsSpace(s[i])
  }

  /** Neither the first nor the last character is a space. */
  predicate NoEdgeSpace(s: string) {
    |s| == 0 || (!IsSpace(s[0]) && !IsSpace(s[|s| - 1]))
  }

  predicate HasPrefix(s: string, p: string) {
    |p| <= |s| && s[..|p|] == p
  }

  /** `strings.Contains(s, sub)`, searched from the left; `ContainsIffOccurs`
      shows it holds exactly when `sub` occurs at some offset. */
  predicate Contains(s: string, sub: string)
    decreases |s|
  {
    HasPrefix(s, sub) || (|s| > 0 && Contains(s[1..], sub))
  }

  /** `sub` sits in `s` starting at offset `i`. */
  predicate OccursAt(s: string, sub: string, i: int) {
    0 <= i && i + |sub| <= |s| && s[i..i + |sub|] == sub
  }

  lemma {:induction false} ContainsIffOccurs(s: string, sub: string)
    ensures Contains(s, sub) <==> exists i :: OccursAt(s, sub, i)
    decreases |s|
  {
    if HasPrefix(s, sub) {
      assert OccursAt(s, sub, 0);
    }
    if |s| > 0 {
      ContainsIffOccurs(s[1..], sub);
      forall i | OccursAt(s[1..], sub, i) ensures OccursAt(s, sub, i + 1) {
        assert s[1..][i..i + |sub|] == s[i + 1..i + 1 + |sub|];
      }
      forall i | OccursAt(s, sub, i) && i > 0 ensures OccursAt(s[1..], sub, i - 1) {
        assert s[1..][i - 1..i - 1 + |sub|] == s[i..i + |sub|];
      }
    }
    if exists i :: OccursAt(s, sub, i) {
      var i :| OccursAt(s, sub, i);
      if i == 0 {
        assert HasPrefix(s, sub);
      }
    }
  }

  /** Searching for a one-character string is testing membership. */
  lemma {:induction false} ContainsOneChar(s: string, c: char)
    ensures Contains(s, [c]) <==> c in s
  {
    if |s| > 0 {
      ContainsOneChar(s[1..], c);
      assert s == [s[0]] + s[1..];
    }
  }

  /** The length of the run of spaces that opens `s`. */
  function LeadingSpaces(s: string): (n: nat)
    ensures n <= |s|
    ensures AllSpace(s[..n])
    ensures n < |s| ==> !IsSpace(s[n])
  {
    if |s| == 0 || !IsSpace(s[0]) then 0
    else
      var m := LeadingSpaces(s[1..]);
      assert s[..1 + m] == [s[0]] + s[1..][..m];
      1 + m
  }

  /** The length of the run of spaces that closes `s`. */
  function TrailingSpaces(s: string): (n: nat)
    ensures n <= |s|
    ensures AllSpace(s[|s| - n..])
    ensures n < |s| ==> !IsSpace(s[|s| - n - 1])
  {
    if |s| == 0 || !IsSpace(s[|s| - 1]) then 0
    else
      var m := TrailingSpaces(s[..|s| - 1]);
      SpaceSuffixGrows(s, m);
      1 + m
  }

  /** A space suffix of `s` minus its last character grows by that
      character when it is a space. */
  lemma SpaceSuffixGrows(s: string, m: nat)
    requires 0 < |s| && m <= |s| - 1 && IsSpace(s[|s| - 1])
    requires AllSpace(s[..|s| - 1][|s| - 1 - m..])
    requires m < |s| - 1 ==> !IsSpace(s[..|s| - 1][|s| - 1 - m - 1])
    ensures AllSpace(s[|s| - (1 + m)..])
    ensures 1 + m < |s| ==> !IsSpace(s[|s| - (1 + m) - 1])
  {
    forall i | |s| - (1 + m) <= i < |s| ensures IsSpace(s[i]) {
      if i < |s| - 1 {
        assert s[..|s| - 1][|s| - 1 - m..][i - (|s| - 1 - m)] == s[i];
      }
    }
  }

  /** A string that does not open with a space is not all trailing space. */
  lemma TrailingSpacesShort(s: string)
    requires |s| > 0 && !IsSpace(s[0])
    ensures TrailingSpaces(s) < |s|
  {
    var t := TrailingSpaces(s);
    assert forall i :: |s| - t <= i < |s| ==> IsSpace(s[i]);
  }

  /** `strings.TrimSpace`: `s` with its leading and trailing spaces removed.
      The result is the piece of `s` after its opening run of spaces that is
      followed only by spaces and has no space at either end;
      `TrimSpaceUnique` shows that this pins it down. */
  function TrimSpace(s: string): (r: string)
    ensures LeadingSpaces(s) + |r| <= |s|
    ensures r == s[LeadingSpaces(s)..LeadingSpaces(s) + |r|]
    ensures AllSpace(s[LeadingSpaces(s) + |r|..])
    ensures NoEdgeSpace(r)
  {
    var lo := LeadingSpaces(s);
    var rest := s[lo..];
    if |rest| == 0 then rest
    else
      TrailingSpacesShort(rest);
      var t := TrailingSpaces(rest);
      assert s[lo + (|rest| - t)..] == rest[|rest| - t..];
      rest[..|rest| - t]
  }

  /** Inside a space prefix of length `n`, the character at `k` is a space. */
  lemma PrefixSpaceAt(s: string, n: nat, k: nat)
    requires n <= |s| && AllSpace(s[..n]) && k < |s|
    ensures k < n ==> IsSpace(s[k])
  {
    if k < n {
      assert s[..n][k] == s[k];
    }
  }

  /** Inside a space suffix of length `n`, the character `k + 1` from the end
      is a space. */
  lemma SuffixSpaceAt(s: string, n: nat, k: nat)
    requires n <= |s| && AllSpace(s[|s| - n..]) && k < |s|
    ensures k < n ==> IsSpace(s[|s| - k - 1])
  {
    if k < n {
      assert s[|s| - n..][n - k - 1] == s[|s| - k - 1];
    }
  }

  /** A username with no space at either end is its own trim. */
  lemma TrimSpaceFixesTrimmed(s: string)
    requires NoEdgeSpace(s)
    ensures TrimSpace(s) == s
  {
    assert s == "" + s + "";
    TrimSpaceUnique(s, "", s, "");
  }

  /** A cut of `s` into a space prefix of length `k` and a rest that does not
      start with a space is the one `LeadingSpaces` finds. */
  lemma LeadingSpacesUnique(s: string, k: nat)
    requires k <= |s|
    requires AllSpace(s[..k])
    requires k < |s| ==> !IsSpace(s[k])
    ensures k == LeadingSpaces(s)
  {
    var n := LeadingSpaces(s);
    if k < |s| { PrefixSpaceAt(s, n, k); }
    if n < |s| { PrefixSpaceAt(s, k, n); }
  }

  /** Mirror image of `LeadingSpacesUnique` for the closing run. */
  lemma TrailingSpacesUnique(s: string, k: nat)
    requires k <= |s|
    requires AllSpace(s[|s| - k..])
    requires k < |s| ==> !IsSpace(s[|s| - k - 1])
    ensures k == TrailingSpaces(s)
  {
    var n := TrailingSpaces(s);
    if k < |s| { SuffixSpaceAt(s, n, k); }
    if n < |s| { SuffixSpaceAt(s, k, n); }
  }

  /** Any way of writing `s` as spaces, a core without edge spaces, and spaces
      has `TrimSpace(s)` as its core. */
  lemma TrimSpaceUnique(s: string, a: string, r: string, b: string)
    requires s == a + r + b
    requires AllSpace(a) && AllSpace(b) && NoEdgeSpace(r)
    ensures TrimSpace(s) == r
  {
    if |r| == 0 {
      assert AllSpace(s[..|s|]) by {
        forall i | 0 <= i < |s| ensures IsSpace(s[..|s|][i]) {
          if i < |a| { assert s[i] == a[i]; } else { assert s[i] == b[i - |a|]; }
        }
      }
      LeadingSpacesUnique(s, |s|);
      assert s[|s|..] == [];
    } else {
      assert s[..|a|] == a;
      assert s[|a|] == r[0];
      LeadingSpacesUnique(s, |a|);
      var rest := s[|a|..];
      assert rest == r + b;
      assert rest[|rest| - |b|..] == b;
      assert rest[|rest| - |b| - 1] == r[|r| - 1];
      TrailingSpacesUnique(rest, |b|);
      assert rest[..|rest| - |b|] == r;
    }
  }

  /** Trimming only drops spaces, so it keeps every other character and adds
      none. */
  lemma {:induction false} TrimSpaceKeepsNonSpace(s: string, c: char)
    requires !IsSpace(c)
    ensures c in TrimSpace(s) <==> c in s
  {
    var lo := LeadingSpaces(s);
    var r := TrimSpace(s);
    var a, b := s[..lo], s[lo + |r|..];
    assert s == a + r + b;
    assert c !in a && c !in b;
  }
}
